=== FILE: README.md ===
# replikator back end, modelled in Dafny

replikator is a desktop backup tool. Its back end does four things:

- It compresses a source folder into a replica.
  - Every regular file `f` below `input` becomes `output/<name of input>/f.zst`, except hidden ones: the walk skips every entry whose name starts with `.`, and everything inside such a folder.
  - Restoring decompresses the replica back and strips that suffix.
  - An incremental run re-encodes only the files it judges stale.
- It lists a folder as a tree.
- It compares a source folder with a destination folder. Each source entry is tagged `[NEW] `, `[CHANGED] ` or nothing.
- It keeps a JSON registry of backup jobs: list, due-for-update filter, add, delete, change date.

This project models those four pieces as pure functions over immutable data and proves what they promise.

- **paths.dfy**: Rust path names as component sequences.
  - The last-dot rule behind `extension` and `file_stem`.
  - `set_extension`, `set_file_name`, and the back end's `add_extension`.
- **walk.dfy**: a directory walk as a given pre-order sequence of entries.
  - Each entry holds a relative path, a depth and a kind: file, directory or other.
  - `main.rs` asks "is it a directory?" and so counts *other* as a file. `compression.rs` asks "is it a file?".
  - `WalkDir::new` skips hidden entries by default. A well-formed walk therefore has no path component starting with `.`.
- **compression.dfy**: `compress_files`, `decompress_files` and `increment`.
  - Each is a sequence of jobs: source path, destination path and progress message.
  - The staleness decision is a predicate over what the run observes of each artifact.
- **tree_listing.dfy**: `get_files_tree` and `folder_compare`.
  - Both are a fold producing a flat tree (labels, levels, parent ids) and a count.
  - The destination map and the tagging are modelled, with the hash as a function parameter.
- **json.dfy**, **types.dfy**: JSON values, and the serde encoding of `BackupEntry` and `Backups`, with their renamed keys.
- **json_io.dfy**: the registry.
  - The store is `Option<Json>`; `None` is a missing file.
  - Every registry command is modelled as a function from one store to the next plus its reply.
- **seqs.dfy**, **time.dfy**, **wrappers.dfy**: filtering and subsequences, nanosecond instants, `Option`.

Clocks, hashes, file contents, timestamp parsing and the zstd frame header are parameters. The file system is given as walks and as functions from paths to what the program would read there.

Where the source's comments or design notes and the code disagree, the model follows the code:

- The tree's parent pointer is the most recently pushed directory, not the structural parent (`TreeListing.ParentIsMostRecentDirectory`).
- An artifact whose header declares no size is never re-encoded on size grounds (`Compression.UnknownSizeIsSkipped`).
- The listing count covers every non-directory, whatever its tag.
- Folder comparison matches paths literally, with no `.zst` stripping (`TreeListing.CompressedReplicaIsAllNew`).
- Restore strips any final dot-suffix, not only `.zst` (`Paths.StemDropsAnySuffix`).
- The design describes walking every descendant, but no call to `WalkDir::new` turns off its default skipping of hidden entries. So `.bashrc`, `.env` and everything under `.git` are never compressed, restored, listed or compared (`Compression.DotfilesAreNeverCompressed`).

## Model

| member | source | states |
|---|---|---|
| Paths.AddExtension | src-tauri/src/compression.rs:14-24 | Definition of `add_extension` on a file name; its property is stated by `Paths.AddExtensionAppends`. |
| Paths.AddExtensionAppends | src-tauri/src/compression.rs:14-24 | Adding an extension to any file name other than `..` yields the name followed by `.` and the extension, whether or not the name already has an extension. |
| Paths.StemAfterAppend | src-tauri/src/compression.rs:113-115 | The stem of `name.ext` is `name` for every non-empty name when `ext` has no dot, so stripping undoes appending. |
| Paths.StemUndoesAddExtension | src-tauri/src/compression.rs:14-24 | For every file name other than `..` and any dot-free extension, the stem of the name with the extension added is the name itself; with `.zst` this is restore undoing compression's renaming (lines 53-54 and 113-115). |
| Paths.StemOfExtensionless | src-tauri/src/compression.rs:113-115 | A name without an extension is its own stem, so restore leaves it unchanged. |
| Paths.StemDropsAnySuffix | src-tauri/src/compression.rs:113-115 | `file_stem` strips whatever final dot-suffix a name has (`notes.txt` becomes `notes`), so restore does too. A leading-dot name (`.bashrc`) is its own stem, though restore never meets one because the walk skips hidden names. |
| Compression.CompressJobs | src-tauri/src/compression.rs:43-54 | Exactly one job per regular file of the walk, in walk order, reading `input/rel` and writing `outDir/rel` with `.zst` appended to the last component. |
| Compression.CompressFiles | src-tauri/src/compression.rs:27-86 | One task per regular file, writing `output/<last component of input>/rel` + `.zst`, with progress message `[compressed] ` followed by that path. |
| Compression.DotfilesAreNeverCompressed | src-tauri/src/compression.rs:43-50 | The walk skips hidden entries, so no compress task ever reads a path that has a component starting with `.`. |
| Compression.DecompressFiles | src-tauri/src/compression.rs:89-144 | One task per regular file of the replica, writing `output/<last component of input>/rel` with the file name replaced by its stem, with progress message `[decompressed] ` followed by that path. |
| Compression.RestoreTask | src-tauri/src/compression.rs:110-135 | A restore job reads the replica file and writes the same relative path with the file name cut back to its stem. Its progress message is `[decompressed] ` followed by that path. |
| Compression.RestoreUndoesCompress | src-tauri/src/compression.rs:32-54 | A compressed file lies inside the replica folder. Restoring the replica to any folder puts the file back at its original relative path, below a folder named after the original source. |
| Compression.CompressedPathInjective | src-tauri/src/compression.rs:51-54 | Two source files never share a compressed destination. |
| Compression.NeedsBackup | src-tauri/src/compression.rs:199-225 | Definition of the per-file staleness decision; its properties are stated by `Compression.UpToDateIsSkipped`, `Compression.UnknownSizeIsSkipped` and `Compression.LaterCutoffSelectsLess`. |
| Compression.UpToDateIsSkipped | src-tauri/src/compression.rs:199-225 | An artifact modified at or before the cutoff is re-encoded exactly when its declared size differs from the source length, for every declared size. |
| Compression.UnknownSizeIsSkipped | src-tauri/src/compression.rs:213-221 | An artifact modified at or before the cutoff whose header declares no size is never re-encoded, whatever the source length. |
| Compression.LaterCutoffSelectsLess | src-tauri/src/compression.rs:199-225 | Moving the cutoff later never makes a file stale that was not stale before. |
| Compression.StaleJobs | src-tauri/src/compression.rs:186-241 | A job is re-encoded iff it is a compress job of the walk and its artifact is stale. The re-encoded jobs are the compress jobs at exactly the stale positions, in walk order, so equal jobs are kept or dropped one by one. |
| Compression.UntouchedArtifacts | src-tauri/src/compression.rs:227-241 | No re-encoding writes the artifact of a file judged up to date. |
| Compression.Increment | src-tauri/src/compression.rs:147-259 | The re-encoded jobs are the compress jobs of exactly the stale regular files, position by position and in walk order, judged against the `lastBackup` text the caller passes. Afterwards the registry's first entry with the job's id has its last backup set to the run's end time. |
| TreeListing.LastDirNode | src-tauri/src/main.rs:48-50 | The parent for the next push is the most recently pushed directory's node, or the root if none: no directory comes after it. |
| TreeListing.BuildTree | src-tauri/src/main.rs:40-52 | The root is skipped and every other entry pushes exactly one node. Each node gets the entry's label and depth and the current parent. The count is the number of non-directories below the root. |
| TreeListing.StepKeepsFolded | src-tauri/src/main.rs:40-52 | One turn of the loop extends the tree and count built so far by exactly the next entry. Nothing is pushed for the root. A pushed directory's node id becomes the parent. |
| TreeListing.EntryName | src-tauri/src/main.rs:24-28 | Definition of `name_from_path`: the last component of an entry's path; `TreeListing.GetFilesTree` states that every node below the root is named by it. |
| TreeListing.GetFilesTree | src-tauri/src/main.rs:24-56 | The root is labelled with the given path. Each entry below it becomes one node named by its last component. The count is the number of non-directories below the root. |
| TreeListing.EmptyDirectoryListing | src-tauri/src/main.rs:31-56 | An empty directory lists as its root alone with count 0. |
| TreeListing.ParentIsMostRecentDirectory | src-tauri/src/main.rs:43-50 | A top-level file walked after a subfolder's contents is pushed under that subfolder, whose level equals its own. |
| TreeListing.DestinationMap | src-tauri/src/main.rs:66-82 | The map's keys are exactly the relative paths of the destination's non-directories, and each maps to the hash of that file's contents. |
| TreeListing.FolderCompare | src-tauri/src/main.rs:59-122 | When every read succeeds (no dangling link in the destination, and every source path found in the destination is a regular file), the source entries are listed like `get_files_tree`. Each label is the classification tag (new iff no destination file has the same relative path; unchanged iff the hashes agree; changed otherwise) followed by the name. The count covers all non-directories. |
| TreeListing.DirectoriesAreNeverKeys | src-tauri/src/main.rs:77-110 | In a destination without repeated paths, a destination directory's path is not a key of the map, so a source entry at that path is tagged `[NEW] ` whatever its hash. |
| TreeListing.CompressedReplicaIsAllNew | src-tauri/src/main.rs:72-99 | Against a replica whose files all end in `.zst`, every source file not so named is tagged `[NEW] `. |
| TreeListing.CompareExample | src-tauri/src/main.rs:92-118 | Destination {a.txt} against source {a.txt unchanged, b.txt} lists `a.txt` and `[NEW] b.txt` and counts 2. |
| Types.SerialisedKeys | src-tauri/src/types.rs:3-17 | A written entry has eight members under the keys `title`, `input`, `output`, `lastBackup`, `nextUpdate`, `deleteButton`, `backupButton` and `hash`, in that order. No key repeats, so looking up each key finds its own member. |
| Types.MemberOfEntry | src-tauri/src/types.rs:3-17 | Looking up any member's key in a written entry finds that member's value, so a reader gets back each field as it was written. |
| Types.DecodeEncodeEntry | src-tauri/src/types.rs:3-17 | Reading back a written entry recovers every field. |
| Types.DecodeEncodeBackups | src-tauri/src/types.rs:19-22 | Reading back a written registry recovers every entry in its order. |
| JsonIo.GetTable | src-tauri/src/json_io.rs:7-23 | An existing store is left unchanged and returned. An absent store is created empty and returns an empty list. |
| JsonIo.DueEntries | src-tauri/src/json_io.rs:32-46 | The clock is read once per entry. The due entries are the registry's entries at exactly the positions where that reading is strictly later than the last backup plus the day count, in registry order, so equal entries are kept or dropped one by one. |
| JsonIo.DueKeepsEveryCopy | src-tauri/src/json_io.rs:33-45 | Two identical entries that are both due are both listed: the filter decides per position, not per value. |
| JsonIo.WeeklyJobSchedule | src-tauri/src/json_io.rs:39-43 | A registry holding one seven-day job lists it exactly when the clock reads more than seven days of nanoseconds after its last backup, and lists nothing otherwise. |
| JsonIo.GetBackupsToUpdate | src-tauri/src/json_io.rs:26-58 | An existing store is unchanged and the reply is a bare array of the due entries, each judged by its own clock reading. An absent store is created empty and the reply is an empty `backups` object. |
| JsonIo.DueReplyHidesEntries | src-tauri/src/json_io.rs:47 | When the store exists, the reply has no `backups` member, so a reader of `.backups` sees none of the due entries. |
| JsonIo.GetBackupsToUpdateFixed | src-tauri/src/json_io.rs:26-58 | Under both branches the reply's `backups` member holds exactly the due entries, and the store is as in `get_backups_to_update`. |
| JsonIo.DecimalRoundTrip | src-tauri/src/json_io.rs:74 | The decimal text of a hash reads back as the same number. |
| JsonIo.DecimalInjective | src-tauri/src/json_io.rs:74 | Distinct hashes give distinct identifiers. |
| JsonIo.NewEntry | src-tauri/src/json_io.rs:66-75 | A new entry has the given title, input, output and day count; last backup `1971-02-10T13:00:00Z`; empty buttons; and an identifier made only of decimal digits that reads back as the stamp, which is the hash of the creation time. |
| JsonIo.AddEntry | src-tauri/src/json_io.rs:61-78 | The registry grows by exactly one entry, the new one, at the end; all earlier entries keep their positions. |
| JsonIo.FirstMatch | src-tauri/src/json_io.rs:85-89 | The position found carries the id and no earlier entry does. |
| JsonIo.RemoveFirst | src-tauri/src/json_io.rs:85-90 | The list loses exactly the entry at the first position carrying the id; the rest keep their order. |
| JsonIo.SetDateOfFirst | src-tauri/src/json_io.rs:99-105 | Same length. The first entry carrying the id changes only its last backup, and every other entry is unchanged. |
| JsonIo.DeleteEntry | src-tauri/src/json_io.rs:81-93 | The stored registry afterwards is the old one with its first entry carrying the id removed. |
| JsonIo.ChangeDate | src-tauri/src/json_io.rs:95-108 | The stored registry afterwards is the old one with the first matching entry's last backup replaced. |
| JsonIo.RemoveFirstKeepsOthers | src-tauri/src/json_io.rs:85-90 | Deleting removes one entry, the first match. The multiset of entries loses exactly that entry, and every entry with another id survives. |
| JsonIo.ChangeDateKeepsIds | src-tauri/src/json_io.rs:99-105 | Change-date leaves every entry's identifier as it was. |
| JsonIo.DeleteKeepsIds | src-tauri/src/json_io.rs:85-90 | After a delete, entries before the removed one keep their identifiers and positions, and later ones move up by one with their identifiers. |

## Left out

- The zstd codec (`copy_encode`, `copy_decode`, the multithreaded encoder, `find_decompressed_size`): a foreign library. A frame header's declared size is an input `Option<nat>`. An error from reading the header is a panic and is not modelled.
- Threads and their joins, and jwalk's parallel walk: concurrency. The walk is a given pre-order sequence of what jwalk yields with its default settings. Those settings skip hidden entries, as `Walk.WellFormed` states, and skip entries it cannot read.
- Hidden names in listing and comparison: the contracts of `TreeListing.GetFilesTree` and `TreeListing.FolderCompare` are stated for any walk, so they cover the program's walks, which never contain hidden names, and more.
  - `decompress_files` never joins its threads (src-tauri/src/compression.rs:141-143); completion is not modelled.
- seahash and xxh3: foreign hashes, passed as functions. File contents are `seq<bv8>` read through a function.
- chrono: parsing is a function parameter. `Utc::now` is either the formatted text passed in or, where the registry filter reads it once per entry, a function from the entry's position to an instant. An instant is an integer count of nanoseconds, a day is 86400 seconds, and overflow of chrono's date range is ignored.
- All file I/O, `create_dir_all`, the progress events, the desktop notification and serde's text rendering: side effects. JSON is a value tree.
- The "took …" duration strings returned by the compression commands: they only report the clock.
- tree_flat's `Display` rendering: only the node list is modelled.
- `get_percentage_rounded` (floating point), `main()` wiring and the TypeScript UI. The exception is the one line of TimeManager.tsx cited under Findings.
- Structs written as JSON arrays: serde_json also reads a `BackupEntry` or `Backups` given as an array of its fields in declaration order. The program never writes that form, and `JsonIo.Readable` holds only for the object form, so every registry command's precondition excludes a registry stored as arrays.
- Panics from `unwrap` and `expect` are preconditions. Examples: a source folder without a last component, a non-file read by `folder_compare` (a directory or a dangling link), an unparsable last backup, a missing id, an unreadable store.
- Read errors on regular files (permissions, races with other writers): the file system is a function that always answers.
- Path roots and prefixes such as `/` and `C:`: paths are sequences of components, relative to the walk root.
- Names that are not valid UTF-8: components are Unicode text. `to_string_lossy` at src-tauri/src/compression.rs:33, 95 and 162 and at src-tauri/src/main.rs:26 replaces invalid bytes with U+FFFD, so the replica folder's name and the tree labels can differ from the real name. `to_str().unwrap()` at src-tauri/src/compression.rs:114 panics on a non-UTF-8 stem, where `Compression.DecompressFiles` returns a task.
- Paths.Display: joins components with `/` as on Unix; on Windows `display` writes `\`, which changes the progress messages there.
- Compression.Increment: the per-file `create_dir_all` side effect and the notification are omitted. The date written is the given text, not a clock reading.
- JsonIo.NewEntry: xxh3 of the local time string is a parameter. The entry's identifier is the decimal text of that 64-bit value.

## Findings

| source | as written | input that shows it | evidently intended | confidence | as-written member | corrected member |
|---|---|---|---|---|---|---|
| src-tauri/src/json_io.rs:47 | When the registry file exists, `get_backups_to_update` serialises the due entries as a bare JSON array. The poller in src/components/TimeManager.tsx:14-15 reads the reply's `backups` member. | An existing registry with one entry that is past due: the reply is `[entry]`, and `.backups` of it is undefined, so the poller would start no backup. The mismatch is latent: src-tauri/src/main.rs:132-141 registers neither `get_backups_to_update` nor `increment`, so today the invoke at src/components/TimeManager.tsx:11 is rejected before any reply exists (the error is logged at line 20). It surfaces once the two commands are registered. | Reply `{"backups": [due entries]}` in both branches, as the absent-store branch already does. | high; not executed | JsonIo.DueReplyHidesEntries | JsonIo.GetBackupsToUpdateFixed |

=== FILE: compression.dfy ===
/** Backup and restore (compression.rs): where each walked file is written,
    the progress message it produces, and which files an incremental run
    re-encodes. The zstd codec, the threads and the file system are not
    modelled; what the incremental run observes of the file system is
    passed in. */
module Compression {
  import opened Wrappers
  import opened Seqs
  import opened Paths
  import opened Walk
  import opened Time
  import opened JsonIo

  const Suffix := "zst"
  const CompressedTag := "[compressed] "
  const DecompressedTag := "[decompressed] "

  /** `p` with `s` appended to its last component. */
  function AppendToName(p: Path, s: string): Path
    requires |p| > 0
  {
    p[..|p| - 1] + [p[|p| - 1] + s]
  }

  /** The folder a run writes into: `output` joined with the last component
      of `input`, so that sources sharing a destination do not collide. */
  function OutputDir(input: Path, output: Path): Path
    requires FileName(input).Some?
  {
    output + [FileName(input).value]
  }

  /** Where a file at `rel` below the source is compressed to. */
  function CompressedPath(outDir: Path, rel: Path): Path {
    AddExtensionToPath(outDir + rel, Suffix)
  }

  /** Where a file at `rel` below the compressed tree is restored to: the
      same place below `outDir`, with the file's stem as its name. */
  function RestoredPath(outDir: Path, rel: Path): Path
    requires FileName(outDir + rel).Some?
  {
    var p := outDir + rel;
    WithFileName(p, FileStem(p[|p| - 1]))
  }

  /** One file to transform: read `source`, write `dest`. */
  datatype Job = Job(source: Path, dest: Path)

  /** A spawned transform and the progress message it emits when done. */
  datatype Task = Task(job: Job, progress: string)

  function CompressJob(input: Path, outDir: Path, e: Entry): Job {
    Job(input + e.rel, CompressedPath(outDir, e.rel))
  }

  /** The file name a walked path ends in, below an output folder. */
  lemma NamedBelow(outDir: Path, walk: seq<Entry>, e: Entry)
    requires FileName(outDir).Some? && WellFormed(walk) && e in walk
    ensures FileName(outDir + e.rel).Some?
  {
    var p := outDir + e.rel;
    if |e.rel| > 0 {
      assert p[|p| - 1] == e.rel[|e.rel| - 1];
    }
  }

  /** Adding the suffix to a path that has a file name appends ".zst" to it. */
  lemma CompressedPathAppends(outDir: Path, rel: Path)
    requires FileName(outDir + rel).Some?
    ensures CompressedPath(outDir, rel) == AppendToName(outDir + rel, "." + Suffix)
  {
    var p := outDir + rel;
    AddExtensionAppends(p[|p| - 1], Suffix);
    assert p[|p| - 1] + "." + Suffix == p[|p| - 1] + ("." + Suffix);
    assert AddExtensionToPath(p, Suffix) == p[..|p| - 1] + [AddExtension(p[|p| - 1], Suffix)];
  }

  /** Every regular file gets exactly one job, in walk order. */
  function CompressJobs(input: Path, outDir: Path, walk: seq<Entry>): (jobs: seq<Job>)
    requires FileName(outDir).Some? && WellFormed(walk)
    ensures |jobs| == |Filter(walk, IsRegularFile)|
    ensures forall k :: 0 <= k < |jobs| ==>
      var e := Filter(walk, IsRegularFile)[k];
      && jobs[k].source == input + e.rel
      && jobs[k].dest == AppendToName(outDir + e.rel, "." + Suffix)
  {
    var files := Filter(walk, IsRegularFile);
    forall k | 0 <= k < |files|
      ensures CompressedPath(outDir, files[k].rel) == AppendToName(outDir + files[k].rel, "." + Suffix)
    {
      NamedBelow(outDir, walk, files[k]);
      CompressedPathAppends(outDir, files[k].rel);
    }
    seq(|files|, k requires 0 <= k < |files| => CompressJob(input, outDir, files[k]))
  }

  /** `compress_files`: one task per regular file of the source walk, writing
      `output/<source name>/<relative path>.zst` and reporting that path. */
  function CompressFiles(input: Path, output: Path, walk: seq<Entry>): (tasks: seq<Task>)
    requires FileName(input).Some? && WellFormed(walk)
    ensures |tasks| == |Filter(walk, IsRegularFile)|
    ensures forall k :: 0 <= k < |tasks| ==>
      var e := Filter(walk, IsRegularFile)[k];
      && tasks[k].job.source == input + e.rel
      && tasks[k].job.dest == AppendToName(output + [input[|input| - 1]] + e.rel, "." + Suffix)
      && tasks[k].progress == CompressedTag + Display(tasks[k].job.dest)
  {
    var jobs := CompressJobs(input, OutputDir(input, output), walk);
    seq(|jobs|, k requires 0 <= k < |jobs| => Task(jobs[k], CompressedTag + Display(jobs[k].dest)))
  }

  /** The walk skips hidden entries, so no file with a hidden component in
      its relative path (`.bashrc`, `.git/HEAD`) is ever compressed. */
  lemma DotfilesAreNeverCompressed(input: Path, output: Path, walk: seq<Entry>, rel: Path)
    requires FileName(input).Some? && WellFormed(walk) && !IsVisiblePath(rel)
    ensures forall t :: t in CompressFiles(input, output, walk) ==> t.job.source != input + rel
  {
    var tasks := CompressFiles(input, output, walk);
    var files := Filter(walk, IsRegularFile);
    forall t | t in tasks
      ensures t.job.source != input + rel
    {
      var k :| 0 <= k < |tasks| && tasks[k] == t;
      var e := files[k];
      assert e in walk;
      var i :| 0 <= i < |walk| && walk[i] == e;
      assert IsVisiblePath(e.rel);
      assert e.rel != rel;
      PrefixCancels(input, e.rel, rel);
    }
  }

  /** Joining below the same folder keeps distinct paths distinct. */
  lemma PrefixCancels(p: Path, a: Path, b: Path)
    ensures p + a == p + b ==> a == b
  {
    if p + a == p + b {
      assert a == (p + a)[|p|..];
      assert b == (p + b)[|p|..];
    }
  }

  /** `decompress_files`: one task per regular file of the compressed walk,
      writing `output/<tree name>/<relative path>` with the final dot-suffix
      of the file name removed, and reporting that path. */
  function DecompressFiles(input: Path, output: Path, walk: seq<Entry>): (tasks: seq<Task>)
    requires FileName(input).Some? && WellFormed(walk)
    ensures |tasks| == |Filter(walk, IsRegularFile)|
    ensures forall k :: 0 <= k < |tasks| ==>
      var e := Filter(walk, IsRegularFile)[k];
      var p := output + [input[|input| - 1]] + e.rel;
      && tasks[k].job.source == input + e.rel
      && tasks[k].job.dest == p[..|p| - 1] + [FileStem(p[|p| - 1])]
      && tasks[k].progress == DecompressedTag + Display(tasks[k].job.dest)
  {
    var outDir := OutputDir(input, output);
    var files := Filter(walk, IsRegularFile);
    forall k | 0 <= k < |files|
      ensures FileName(outDir + files[k].rel).Some?
    {
      NamedBelow(outDir, walk, files[k]);
    }
    assert outDir == output + [input[|input| - 1]];
    seq(|files|, k requires 0 <= k < |files| => RestoreTask(input, outDir, files[k]))
  }

  /** The task restoring the replica file at `e.rel`. */
  function RestoreTask(input: Path, outDir: Path, e: Entry): (t: Task)
    requires FileName(outDir + e.rel).Some?
    ensures var p := outDir + e.rel;
      && t.job.source == input + e.rel
      && t.job.dest == p[..|p| - 1] + [FileStem(p[|p| - 1])]
      && t.progress == DecompressedTag + Display(t.job.dest)
  {
    var dest := RestoredPath(outDir, e.rel);
    Task(Job(input + e.rel, dest), DecompressedTag + Display(dest))
  }

  /** Restoring the compressed tree puts every file back at its original
      relative path, below a folder named after the original source. */
  lemma RestoreUndoesCompress(input: Path, output: Path, restoreTo: Path, rel: Path)
    requires FileName(input).Some? && IsNormalPath(rel) && |rel| > 0
    ensures var replica := OutputDir(input, output);
      var c := CompressedPath(replica, rel);
      && |c| == |replica| + |rel|
      && c[..|replica|] == replica
      && RestoredPath(OutputDir(replica, restoreTo), c[|replica|..]) == OutputDir(input, restoreTo) + rel
  {
    var replica := OutputDir(input, output);
    var name := rel[|rel| - 1];
    var crel := AppendToName(rel, "." + Suffix);
    assert (replica + rel)[|replica + rel| - 1] == name;
    CompressedPathAppends(replica, rel);
    assert CompressedPath(replica, rel) == replica + crel;
    assert (replica + crel)[|replica|..] == crel;
    var home := OutputDir(replica, restoreTo);
    assert home == OutputDir(input, restoreTo);
    var p := home + crel;
    assert p[|p| - 1] == name + "." + Suffix;
    StemAfterAppend(name, Suffix);
    assert p[..|p| - 1] + [name] == home + rel;
  }

  /** Distinct source files never share a destination, so re-encoding one
      file cannot change the artifact another file is judged by. */
  lemma CompressedPathInjective(outDir: Path, r1: Path, r2: Path)
    requires FileName(outDir + r1).Some? && FileName(outDir + r2).Some?
    requires CompressedPath(outDir, r1) == CompressedPath(outDir, r2)
    ensures r1 == r2
  {
    CompressedPathAppends(outDir, r1);
    CompressedPathAppends(outDir, r2);
    AppendToNameInjective(outDir + r1, outDir + r2, "." + Suffix);
    assert r1 == (outDir + r1)[|outDir|..] && r2 == (outDir + r2)[|outDir|..];
  }

  /** Appending the same text to the last component keeps paths apart. */
  lemma AppendToNameInjective(p1: Path, p2: Path, s: string)
    requires |p1| > 0 && |p2| > 0 && AppendToName(p1, s) == AppendToName(p2, s)
    ensures p1 == p2
  {
    var c := AppendToName(p1, s);
    var n := |p1| - 1;
    assert |p2| - 1 == n;
    assert p1[..n] == c[..n] == p2[..n];
    assert p1[n] == c[n][..|c[n]| - |s|] == p2[n];
    assert p1 == p1[..n] + [p1[n]];
    assert p2 == p2[..n] + [p2[n]];
  }

  /** What an incremental run sees of a destination artifact: nothing, or
      its modification time and the decompressed size its frame header
      declares, if it declares one. */
  datatype Artifact = Absent | Present(modified: Instant, declaredSize: Option<nat>)

  /** The per-file decision of `increment`; the first rule that applies
      wins: a missing artifact is stale; one modified strictly after the
      cutoff is stale; otherwise it is stale exactly when its header
      declares a size and that size differs from the source's length. */
  predicate NeedsBackup(a: Artifact, cutoff: Instant, sourceLen: nat) {
    match a
    case Absent => true
    case Present(modified, declared) =>
      if modified > cutoff then true
      else match declared
        case Some(size) => size != sourceLen
        case None => false
  }

  /** An artifact untouched since the cutoff (one modified exactly at the
      cutoff included) is re-encoded exactly when its declared size differs
      from the source's length. */
  lemma UpToDateIsSkipped(modified: Instant, cutoff: Instant, len: nat)
    requires modified <= cutoff
    ensures !NeedsBackup(Present(modified, Some(len)), cutoff, len)
    ensures forall size: nat :: NeedsBackup(Present(modified, Some(size)), cutoff, len) <==> size != len
  {
  }

  /** A header without a size hides any change of length: such an artifact
      is skipped whatever the source's length. */
  lemma UnknownSizeIsSkipped(modified: Instant, cutoff: Instant, len: nat)
    requires modified <= cutoff
    ensures !NeedsBackup(Present(modified, None), cutoff, len)
  {
  }

  /** A later cutoff never selects more files. */
  lemma LaterCutoffSelectsLess(a: Artifact, earlier: Instant, later: Instant, len: nat)
    requires earlier <= later
    ensures NeedsBackup(a, later, len) ==> NeedsBackup(a, earlier, len)
  {
  }

  /** The files an incremental run re-encodes, in walk order, given what it
      observes of each destination (`probe`) and each source (`sourceLen`). */
  function StaleJobs(input: Path, outDir: Path, walk: seq<Entry>, cutoff: Instant,
                     probe: Path -> Artifact, sourceLen: Path -> nat): (jobs: seq<Job>)
    requires FileName(outDir).Some? && WellFormed(walk)
    ensures forall j :: j in jobs <==>
      && j in CompressJobs(input, outDir, walk)
      && NeedsBackup(probe(j.dest), cutoff, sourceLen(j.source))
    ensures var all := CompressJobs(input, outDir, walk);
      exists idx ::
        && SubsequenceBy(jobs, all, idx)
        && forall i :: 0 <= i < |all| ==> (i in idx <==> NeedsBackup(probe(all[i].dest), cutoff, sourceLen(all[i].source)))
  {
    var all := CompressJobs(input, outDir, walk);
    var stale := (j: Job) => NeedsBackup(probe(j.dest), cutoff, sourceLen(j.source));
    FilterPicks(all, stale);
    Filter(all, stale)
  }

  /** A regular file judged up to date keeps its artifact: no job writes it. */
  lemma UntouchedArtifacts(input: Path, outDir: Path, walk: seq<Entry>, cutoff: Instant,
                           probe: Path -> Artifact, sourceLen: Path -> nat, i: nat)
    requires FileName(outDir).Some? && WellFormed(walk)
    requires i < |walk| && IsRegularFile(walk[i])
    requires !NeedsBackup(probe(CompressedPath(outDir, walk[i].rel)), cutoff, sourceLen(input + walk[i].rel))
    ensures forall j :: j in StaleJobs(input, outDir, walk, cutoff, probe, sourceLen) ==>
      j.dest != CompressedPath(outDir, walk[i].rel)
  {
    var all := CompressJobs(input, outDir, walk);
    forall j | j in StaleJobs(input, outDir, walk, cutoff, probe, sourceLen)
      ensures j.dest != CompressedPath(outDir, walk[i].rel)
    {
      assert j in all;
      var k :| 0 <= k < |all| && all[k] == j;
      if j.dest == CompressedPath(outDir, walk[i].rel) {
        DestDeterminesSource(input, outDir, walk, k, i);
        assert false;
      }
    }
  }

  /** The job writing a regular file's artifact reads that very file. */
  lemma DestDeterminesSource(input: Path, outDir: Path, walk: seq<Entry>, k: nat, i: nat)
    requires FileName(outDir).Some? && WellFormed(walk)
    requires k < |CompressJobs(input, outDir, walk)| && i < |walk| && IsRegularFile(walk[i])
    requires CompressJobs(input, outDir, walk)[k].dest == CompressedPath(outDir, walk[i].rel)
    ensures CompressJobs(input, outDir, walk)[k].source == input + walk[i].rel
  {
    var files := Filter(walk, IsRegularFile);
    var e := files[k];
    assert e in walk;
    NamedBelow(outDir, walk, e);
    NamedBelow(outDir, walk, walk[i]);
    CompressedPathAppends(outDir, e.rel);
    CompressedPathInjective(outDir, e.rel, walk[i].rel);
  }

  /** The outcome of an incremental run: the files it re-encoded, and the
      registry with the job's last-backup time moved to the run's end. */
  datatype IncrementRun = IncrementRun(reencoded: seq<Job>, store: Store)

  /** `increment`: `lastBackup` is the job's previous run, which becomes the
      cutoff; `nowText` is the formatted clock reading at the end. */
  function Increment(store: Store, id: string, input: Path, output: Path,
                     lastBackup: string, parse: string -> Option<Instant>, nowText: string,
                     walk: seq<Entry>, probe: Path -> Artifact, sourceLen: Path -> nat): (r: IncrementRun)
    requires parse(lastBackup).Some?
    requires FileName(input).Some? && WellFormed(walk)
    requires Readable(store) && HasId(Entries(store), id)
    ensures forall j :: j in r.reencoded <==>
      && j in CompressJobs(input, OutputDir(input, output), walk)
      && NeedsBackup(probe(j.dest), parse(lastBackup).value, sourceLen(j.source))
    ensures var all := CompressJobs(input, OutputDir(input, output), walk);
      exists idx ::
        && SubsequenceBy(r.reencoded, all, idx)
        && forall i :: 0 <= i < |all| ==>
             (i in idx <==> NeedsBackup(probe(all[i].dest), parse(lastBackup).value, sourceLen(all[i].source)))
    ensures Readable(r.store)
    ensures Entries(r.store) == SetDateOfFirst(Entries(store), id, nowText)
  {
    var outDir := OutputDir(input, output);
    var jobs := StaleJobs(input, outDir, walk, parse(lastBackup).value, probe, sourceLen);
    IncrementRun(jobs, ChangeDate(store, id, nowText))
  }
}

=== FILE: json.dfy ===
/** JSON documents as serde_json reads and writes them, as value trees;
    the textual rendering (quoting, escaping, pretty-printing) is not
    modelled. */
module Json {
  import opened Wrappers

  datatype Json =
    | JNull
    | JBool(b: bool)
    | JNum(n: int)
    | JStr(s: string)
    | JArr(items: seq<Json>)
    | JObj(members: seq<(string, Json)>)

  /** How many members carry `key`. */
  function Occurrences(ms: seq<(string, Json)>, key: string): nat {
    if ms == [] then 0
    else (if ms[0].0 == key then 1 else 0) + Occurrences(ms[1..], key)
  }

  /** The value of the first member named `key`. */
  function FirstValue(ms: seq<(string, Json)>, key: string): (r: Option<Json>)
    ensures r.None? <==> Occurrences(ms, key) == 0
  {
    if ms == [] then None
    else if ms[0].0 == key then Some(ms[0].1)
    else FirstValue(ms[1..], key)
  }

  /** A struct field as a derived `Deserialize` finds it in a JSON object:
      present exactly once; a missing or repeated field is an error.
      Unknown members are ignored. serde_json also reads a struct written
      as an array of its fields in declaration order; that form is not
      modelled, and a struct is read only from an object. */
  function Member(ms: seq<(string, Json)>, key: string): Option<Json> {
    if Occurrences(ms, key) == 1 then FirstValue(ms, key) else None
  }

  lemma {:induction false} OccurrencesAbsent(ms: seq<(string, Json)>, key: string)
    requires forall i :: 0 <= i < |ms| ==> ms[i].0 != key
    ensures Occurrences(ms, key) == 0
    decreases |ms|
  {
    if ms != [] {
      OccurrencesAbsent(ms[1..], key);
    }
  }

  /** A key no other member repeats is found, with its value. */
  lemma {:induction false} MemberOfUnique(ms: seq<(string, Json)>, i: nat)
    requires i < |ms|
    requires forall j :: 0 <= j < |ms| && j != i ==> ms[j].0 != ms[i].0
    ensures Member(ms, ms[i].0) == Some(ms[i].1)
    decreases |ms|
  {
    var key := ms[i].0;
    if i == 0 {
      OccurrencesAbsent(ms[1..], key);
    } else {
      MemberOfUnique(ms[1..], i - 1);
    }
  }
}

=== FILE: json_io.dfy ===
/** The backup registry commands (json_io.rs). Each reads the whole
    registry file, works on the decoded list, and writes it back in full.
    A store is the file's parsed contents, `None` when no file exists. */
module JsonIo {
  import opened Wrappers
  import opened Seqs
  import opened Json
  import opened Types
  import opened Time

  type Store = Option<Json>

  /** A command's effect on the store, and the JSON it hands to the caller. */
  datatype Reply = Reply(store: Store, body: Json)

  /** The file exists and holds a registry; reading anything else panics. */
  predicate Readable(store: Store) {
    store.Some? && DecodeBackups(store.value).Some?
  }

  function Entries(store: Store): seq<BackupEntry>
    requires Readable(store)
  {
    DecodeBackups(store.value).value.backups
  }

  /** Every mutating command rewrites the whole registry. */
  function Write(es: seq<BackupEntry>): (r: Store)
    ensures Readable(r) && Entries(r) == es
  {
    DecodeEncodeBackups(Backups(es));
    Some(EncodeBackups(Backups(es)))
  }

  /** `get_table`: an absent store is created holding an empty registry; an
      existing one is read, not rewritten, and returned as stored. */
  function GetTable(store: Store): (r: Reply)
    requires store.Some? ==> Readable(store)
    ensures Readable(r.store)
    ensures store.Some? ==> r.store == store
    ensures store.None? ==> Entries(r.store) == []
    ensures DecodeBackups(r.body) == Some(Backups(Entries(r.store)))
  {
    if store.Some? then
      var b := DecodeBackups(store.value).value;
      DecodeEncodeBackups(b);
      Reply(store, EncodeBackups(b))
    else
      DecodeEncodeBackups(Backups([]));
      Reply(Write([]), EncodeBackups(Backups([])))
  }

  /** Every stored timestamp parses (`parse_from_str(..).unwrap()`). */
  predicate AllParse(es: seq<BackupEntry>, parse: string -> Option<Instant>) {
    forall i :: 0 <= i < |es| ==> parse(es[i].lastBackup).Some?
  }

  /** A job is due once the clock is strictly past its last backup plus
      its interval in days. */
  predicate IsDue(e: BackupEntry, now: Instant, parse: string -> Option<Instant>) {
    parse(e.lastBackup).Some? && now > parse(e.lastBackup).value + Days(e.nextUpdate)
  }

  /** The jobs due, in registry order. The loop reads the clock afresh for
      every entry, so `now(i)` is the reading taken while it looks at entry
      `i`; each due entry is kept once per position it occupies. */
  function DueEntries(es: seq<BackupEntry>, now: nat -> Instant, parse: string -> Option<Instant>): (r: seq<BackupEntry>)
    requires AllParse(es, parse)
    ensures exists idx ::
      && SubsequenceBy(r, es, idx)
      && forall i :: 0 <= i < |es| ==> (i in idx <==> now(i) > parse(es[i].lastBackup).value + Days(es[i].nextUpdate))
  {
    var keep := (i: nat) => i < |es| && IsDue(es[i], now(i), parse);
    SelectPicks(es, keep);
    Select(es, keep)
  }

  /** `get_backups_to_update`. On an existing store the reply is a bare
      array of the due entries; on an absent one the store is initialised
      and the reply is the `{"backups": []}` object `get_table` returns. */
  function GetBackupsToUpdate(store: Store, now: nat -> Instant, parse: string -> Option<Instant>): (r: Reply)
    requires store.Some? ==> Readable(store) && AllParse(Entries(store), parse)
    ensures Readable(r.store)
    ensures store.Some? ==> r.store == store
    ensures store.Some? ==> r.body.JArr? && DecodeEntries(r.body.items) == Some(DueEntries(Entries(store), now, parse))
    ensures store.None? ==> Entries(r.store) == [] && DecodeBackups(r.body) == Some(Backups([]))
  {
    if store.Some? then
      var due := DueEntries(Entries(store), now, parse);
      DecodeEncodeEntries(due);
      Reply(store, JArr(EncodeEntries(due)))
    else
      GetTable(store)
  }

  /** What the front end's polling timer takes from the reply: its
      `backups` member, read as a registry. */
  function BackupsField(body: Json): Option<seq<BackupEntry>> {
    match DecodeBackups(body)
    case Some(b) => Some(b.backups)
    case None => None
  }

  /** On an existing store the bare array has no `backups` member, so the
      poller never sees a due job, however many there are. */
  lemma DueReplyHidesEntries(store: Store, now: nat -> Instant, parse: string -> Option<Instant>)
    requires Readable(store) && AllParse(Entries(store), parse)
    ensures BackupsField(GetBackupsToUpdate(store, now, parse).body).None?
  {
  }

  /** `get_backups_to_update` with both branches answering in the shape
      the poller reads. */
  function GetBackupsToUpdateFixed(store: Store, now: nat -> Instant, parse: string -> Option<Instant>): (r: Reply)
    requires store.Some? ==> Readable(store) && AllParse(Entries(store), parse)
    ensures Readable(r.store)
    ensures store.Some? ==> r.store == store
    ensures store.None? ==> Entries(r.store) == []
    ensures BackupsField(r.body) == Some(DueEntries(Entries(r.store), now, parse))
  {
    if store.Some? then
      var due := DueEntries(Entries(store), now, parse);
      DecodeEncodeBackups(Backups(due));
      Reply(store, EncodeBackups(Backups(due)))
    else
      DecodeEncodeBackups(Backups([]));
      Reply(Write([]), EncodeBackups(Backups([])))
  }

  /** The decimal digits Rust's `u64::to_string` writes. */
  function Decimal(n: nat): (s: string)
    ensures |s| >= 1
    ensures forall i :: 0 <= i < |s| ==> '0' <= s[i] <= '9'
  {
    if n < 10 then [(48 + n) as char]
    else Decimal(n / 10) + [(48 + n % 10) as char]
  }

  /** The number a string of decimal digits denotes. */
  function DecimalValue(s: string): nat
    requires forall i :: 0 <= i < |s| ==> '0' <= s[i] <= '9'
  {
    if s == [] then 0
    else 10 * DecimalValue(s[..|s| - 1]) + (s[|s| - 1] as int - 48)
  }

  lemma {:induction false} DecimalRoundTrip(n: nat)
    ensures DecimalValue(Decimal(n)) == n
  {
    if n >= 10 {
      DecimalRoundTrip(n / 10);
      var s := Decimal(n);
      assert s[..|s| - 1] == Decimal(n / 10);
    }
  }

  /** Distinct hashes give distinct identifiers. */
  lemma DecimalInjective(a: nat, b: nat)
    ensures Decimal(a) == Decimal(b) ==> a == b
  {
    DecimalRoundTrip(a);
    DecimalRoundTrip(b);
  }

  /** The sentinel a new job starts with, standing for "never backed up". */
  const NeverBackedUp := "1971-02-10T13:00:00Z"

  /** A job as `add_entry` creates it. `stamp` is the hash of the creation
      instant, computed by a foreign hash function; the identifier is its
      decimal rendering, so distinct stamps give distinct identifiers. */
  function NewEntry(title: string, input: string, output: string, nextUpdate: U32, stamp: U64): (e: BackupEntry)
    ensures e.title == title && e.input == input && e.output == output
    ensures e.nextUpdate == nextUpdate && e.lastBackup == NeverBackedUp
    ensures e.deleteButton == "" && e.backupButton == ""
    ensures forall i :: 0 <= i < |e.hash| ==> '0' <= e.hash[i] <= '9'
    ensures DecimalValue(e.hash) == stamp
  {
    DecimalRoundTrip(stamp);
    BackupEntry(title, input, output, NeverBackedUp, nextUpdate, "", "", Decimal(stamp))
  }

  /** `add_entry`: appends one new job and leaves the others as they were. */
  function AddEntry(store: Store, title: string, input: string, output: string, nextUpdate: U32, stamp: U64): (r: Store)
    requires Readable(store)
    ensures Readable(r)
    ensures |Entries(r)| == |Entries(store)| + 1
    ensures Entries(r)[..|Entries(store)|] == Entries(store)
    ensures Entries(r)[|Entries(store)|] == NewEntry(title, input, output, nextUpdate, stamp)
  {
    var es := Entries(store);
    var e := NewEntry(title, input, output, nextUpdate, stamp);
    var r := Write(es + [e]);
    assert (es + [e])[..|es|] == es;
    r
  }

  predicate HasId(es: seq<BackupEntry>, id: string) {
    exists i :: 0 <= i < |es| && es[i].hash == id
  }

  /** `position(|entry| entry.hash == id)`: the first entry carrying `id`. */
  function FirstMatch(es: seq<BackupEntry>, id: string): (i: nat)
    requires HasId(es, id)
    ensures i < |es| && es[i].hash == id
    ensures forall k :: 0 <= k < i ==> es[k].hash != id
  {
    if es[0].hash == id then 0
    else
      var j :| 0 <= j < |es| && es[j].hash == id;
      assert es[1..][j - 1].hash == id;
      1 + FirstMatch(es[1..], id)
  }

  /** `i` is where the first entry carrying `id` sits. */
  ghost predicate IsFirstMatch(es: seq<BackupEntry>, id: string, i: int) {
    0 <= i < |es| && es[i].hash == id && forall k :: 0 <= k < i ==> es[k].hash != id
  }

  /** The list without its first entry carrying `id`. */
  function RemoveFirst(es: seq<BackupEntry>, id: string): (r: seq<BackupEntry>)
    requires HasId(es, id)
    ensures exists i :: IsFirstMatch(es, id, i) && r == es[..i] + es[i + 1..]
  {
    var i := FirstMatch(es, id);
    assert IsFirstMatch(es, id, i);
    es[..i] + es[i + 1..]
  }

  /** The list with the first entry carrying `id` given a new `lastBackup`. */
  function SetDateOfFirst(es: seq<BackupEntry>, id: string, date: string): (r: seq<BackupEntry>)
    requires HasId(es, id)
    ensures |r| == |es|
    ensures exists i ::
      && IsFirstMatch(es, id, i)
      && r[i] == es[i].(lastBackup := date)
      && forall k :: 0 <= k < |r| && k != i ==> r[k] == es[k]
  {
    var i := FirstMatch(es, id);
    assert IsFirstMatch(es, id, i);
    es[i := es[i].(lastBackup := date)]
  }

  /** `delete_entry`: the registry loses its first entry carrying `id`; an
      absent `id` panics before anything is written. */
  function DeleteEntry(store: Store, id: string): (r: Store)
    requires Readable(store) && HasId(Entries(store), id)
    ensures Readable(r) && Entries(r) == RemoveFirst(Entries(store), id)
  {
    Write(RemoveFirst(Entries(store), id))
  }

  /** `change_date`: the first entry carrying `id` gets the new
      `lastBackup`; an absent `id` panics before anything is written. */
  function ChangeDate(store: Store, id: string, date: string): (r: Store)
    requires Readable(store) && HasId(Entries(store), id)
    ensures Readable(r) && Entries(r) == SetDateOfFirst(Entries(store), id, date)
  {
    Write(SetDateOfFirst(Entries(store), id, date))
  }

  /** Two first matches are the same position. */
  lemma FirstMatchUnique(es: seq<BackupEntry>, id: string, i: int)
    requires IsFirstMatch(es, id, i)
    ensures HasId(es, id) && i == FirstMatch(es, id)
  {
  }

  /** Cutting position `i` out of a list loses exactly that element. */
  lemma CutFacts<T>(s: seq<T>, i: int)
    requires 0 <= i < |s|
    ensures multiset(s[..i] + s[i + 1..]) + multiset{s[i]} == multiset(s)
  {
    assert s == s[..i] + [s[i]] + s[i + 1..];
  }

  /** Deleting removes exactly one entry carrying `id`, the first; every
      entry with another identifier survives. */
  lemma RemoveFirstKeepsOthers(es: seq<BackupEntry>, id: string)
    requires HasId(es, id)
    ensures var r := RemoveFirst(es, id);
      && |r| == |es| - 1
      && multiset(r) + multiset{es[FirstMatch(es, id)]} == multiset(es)
      && (forall e :: e in es && e.hash != id ==> e in r)
  {
    var r := RemoveFirst(es, id);
    var i :| IsFirstMatch(es, id, i) && r == es[..i] + es[i + 1..];
    FirstMatchUnique(es, id, i);
    CutFacts(es, i);
    forall e | e in es && e.hash != id
      ensures e in r
    {
      assert e in multiset(es);
      assert e != es[i];
    }
  }

  /** Change-date keeps every entry's identifier. */
  lemma ChangeDateKeepsIds(es: seq<BackupEntry>, id: string, date: string)
    requires HasId(es, id)
    ensures forall k :: 0 <= k < |es| ==> SetDateOfFirst(es, id, date)[k].hash == es[k].hash
  {
    var c := SetDateOfFirst(es, id, date);
    var j :| IsFirstMatch(es, id, j) && c[j] == es[j].(lastBackup := date)
      && forall k :: 0 <= k < |c| && k != j ==> c[k] == es[k];
  }

  /** Delete keeps the survivors' identifiers, in their order. */
  lemma DeleteKeepsIds(es: seq<BackupEntry>, id: string)
    requires HasId(es, id)
    ensures var i, r := FirstMatch(es, id), RemoveFirst(es, id);
      forall k :: 0 <= k < |r| ==> r[k].hash == (if k < i then es[k].hash else es[k + 1].hash)
  {
    var i, r := FirstMatch(es, id), RemoveFirst(es, id);
    assert r == es[..i] + es[i + 1..];
    CutHashes(es, i, r);
  }

  /** The identifiers of a list with position `i` cut out, by position. */
  lemma CutHashes(es: seq<BackupEntry>, i: int, r: seq<BackupEntry>)
    requires 0 <= i < |es| && r == es[..i] + es[i + 1..]
    ensures forall k :: 0 <= k < |r| ==> r[k].hash == (if k < i then es[k].hash else es[k + 1].hash)
  {
    CutIndices(es, i);
    forall k | 0 <= k < |r|
      ensures r[k].hash == (if k < i then es[k].hash else es[k + 1].hash)
    {
      assert r[k] == (if k < i then es[k] else es[k + 1]);
    }
  }

  /** Where each element of a list with position `i` cut out came from. */
  lemma CutIndices<T>(s: seq<T>, i: int)
    requires 0 <= i < |s|
    ensures forall k :: 0 <= k < |s| - 1 ==> (s[..i] + s[i + 1..])[k] == (if k < i then s[k] else s[k + 1])
  {
  }

  /** A weekly job last backed up at `t` is due exactly once the clock is
      strictly past `t` plus seven days. */
  lemma WeeklyJobSchedule(e: BackupEntry, t: Instant, now: nat -> Instant, parse: string -> Option<Instant>)
    requires parse(e.lastBackup) == Some(t) && e.nextUpdate == 7
    ensures DueEntries([e], now, parse) == (if now(0) > t + 7 * 86_400 * 1_000_000_000 then [e] else [])
  {
    var keep := (i: nat) => i < |[e]| && IsDue([e][i], now(i), parse);
    assert [e][..0] == [];
  }

  /** A job listed twice and due at both readings is reported twice. */
  lemma DueKeepsEveryCopy(x: BackupEntry, now: nat -> Instant, parse: string -> Option<Instant>)
    requires IsDue(x, now(0), parse) && IsDue(x, now(1), parse)
    ensures DueEntries([x, x], now, parse) == [x, x]
  {
    var es := [x, x];
    var keep := (i: nat) => i < |es| && IsDue(es[i], now(i), parse);
    assert es[..1] == [x] && [x][..0] == [];
  }
}

=== FILE: paths.dfy ===
/** File names and paths as Rust's `std::path` treats them, reduced to what
    the back end uses: the last component, its extension and its stem. */
module Paths {
  import opened Wrappers

  /** A path is the sequence of its components as `Path::components`
      yields them: a "." survives only as the first component, so a path
      ending in "." is the path "." itself. */
  type Path = seq<string>

  /** A component as a directory walk yields it. */
  predicate IsNormal(c: string) {
    c != "" && c != "." && c != ".." && '/' !in c
  }

  predicate IsNormalPath(p: Path) {
    forall i :: 0 <= i < |p| ==> IsNormal(p[i])
  }

  /** A hidden name, by the Unix convention: it starts with a dot. */
  predicate IsHidden(c: string) {
    |c| > 0 && c[0] == '.'
  }

  /** No component of the path is hidden. */
  predicate IsVisiblePath(p: Path) {
    forall i :: 0 <= i < |p| ==> !IsHidden(p[i])
  }

  /** `Path::file_name`: the last component, absent for an empty path and
      for one that ends in "." or "..". */
  function FileName(p: Path): Option<string> {
    if |p| == 0 || p[|p| - 1] == "." || p[|p| - 1] == ".." then None else Some(p[|p| - 1])
  }

  /** `PathBuf::display` on a Unix host. */
  function Display(p: Path): string {
    if |p| == 0 then ""
    else if |p| == 1 then p[0]
    else Display(p[..|p| - 1]) + "/" + p[|p| - 1]
  }

  /** The index of the last '.' in `name`, if there is one. */
  function LastDot(name: string): (r: Option<nat>)
    ensures r.None? ==> '.' !in name
    ensures r.Some? ==> r.value < |name| && name[r.value] == '.'
    ensures r.Some? ==> forall j :: r.value < j < |name| ==> name[j] != '.'
  {
    if name == [] then None
    else if name[|name| - 1] == '.' then Some(|name| - 1)
    else
      assert name == name[..|name| - 1] + [name[|name| - 1]];
      LastDot(name[..|name| - 1])
  }

  /** Where Rust splits a file name into stem and extension: at the last
      dot, unless the name is "..", has no dot, or its only dot leads. */
  function DotSplit(name: string): Option<nat> {
    if name == ".." then None
    else match LastDot(name)
      case None => None
      case Some(i) => if i == 0 then None else Some(i)
  }

  /** `Path::file_stem` of a file name. */
  function FileStem(name: string): string {
    match DotSplit(name)
    case None => name
    case Some(i) => name[..i]
  }

  /** `Path::extension` of a file name. */
  function Extension(name: string): Option<string> {
    match DotSplit(name)
    case None => None
    case Some(i) => Some(name[i + 1..])
  }

  /** `PathBuf::set_extension` on a file name: cut back to the stem, then
      append "." and the new extension unless that is empty. */
  function SetExtension(name: string, ext: string): string {
    FileStem(name) + (if ext == "" then "" else "." + ext)
  }

  /** `add_extension` of compression.rs on a file name: a present extension
      `e` is replaced by `e.ext`, an absent one becomes `ext`. */
  function AddExtension(name: string, ext: string): string {
    match Extension(name)
    case Some(e) => SetExtension(name, e + "." + ext)
    case None => SetExtension(name, ext)
  }

  /** `add_extension` on a path: only the last component changes; a path
      without a file name is left alone, as `set_extension` does. */
  function AddExtensionToPath(p: Path, ext: string): Path {
    if FileName(p).None? then p else p[..|p| - 1] + [AddExtension(p[|p| - 1], ext)]
  }

  /** `PathBuf::set_file_name`: replace the file name, or push one when the
      path has none. */
  function WithFileName(p: Path, name: string): Path {
    if FileName(p).Some? then p[..|p| - 1] + [name] else p + [name]
  }

  /** Appending an extension always yields the old name, a dot and the
      extension, whether or not the name already had one. */
  lemma AddExtensionAppends(name: string, ext: string)
    requires name != ".." && ext != ""
    ensures AddExtension(name, ext) == name + "." + ext
  {
    match DotSplit(name)
    case None =>
      assert FileStem(name) == name;
    case Some(i) =>
      var stem, e := name[..i], name[i + 1..];
      assert FileStem(name) == stem;
      assert Extension(name) == Some(e);
      var tail := e + "." + ext;
      assert AddExtension(name, ext) == stem + "." + tail;
      Splice(name, i, '.', ext);
  }

  /** Cutting `name` at a `sep` and gluing it back with `sep` and a suffix. */
  lemma Splice(name: string, i: nat, sep: char, ext: string)
    requires i < |name| && name[i] == sep
    ensures name[..i] + [sep] + (name[i + 1..] + [sep] + ext) == name + [sep] + ext
  {
    assert name == name[..i] + [sep] + name[i + 1..];
  }

  /** Taking the stem undoes appending a dot-free extension. */
  lemma StemAfterAppend(name: string, ext: string)
    requires name != "" && ext != "" && '.' !in ext
    ensures FileStem(name + "." + ext) == name
  {
    var full := name + "." + ext;
    assert full[|name|] == '.';
    assert forall j :: |name| < j < |full| ==> full[j] == ext[j - |name| - 1];
    assert LastDot(full) == Some(|name|);
    assert full[..|name|] == name;
  }

  /** Restore's stem undoes compression's `add_extension` for every file
      name, with or without an extension of its own. */
  lemma StemUndoesAddExtension(name: string, ext: string)
    requires name != "" && name != ".." && ext != "" && '.' !in ext
    ensures FileStem(AddExtension(name, ext)) == name
  {
    AddExtensionAppends(name, ext);
    StemAfterAppend(name, ext);
  }

  /** A name whose only dot (if any) is its first character keeps its stem. */
  lemma StemOfExtensionless(name: string)
    requires forall j :: 0 < j < |name| ==> name[j] != '.'
    ensures FileStem(name) == name
    ensures Extension(name).None?
  {
  }

  /** The stem drops whatever final suffix a name has, not only "zst". */
  lemma StemDropsAnySuffix()
    ensures FileStem("notes.txt") == "notes"
    ensures FileStem(".bashrc") == ".bashrc"
  {
    assert LastDot("notes.txt") == Some(5);
    assert LastDot(".bashrc") == Some(0);
  }
}

=== FILE: seqs.dfy ===
/** Order-preserving filtering of sequences, shared by the walk, the
    incremental selector and the registry's due list. */
module Seqs {

  /** The elements of `s` that satisfy `p`, in their original order.
      Defined from the back so that one more element appends at most one. */
  function Filter<T(!new)>(s: seq<T>, p: T -> bool): (r: seq<T>)
    ensures |r| <= |s|
    ensures forall x :: x in r <==> x in s && p(x)
    decreases |s|
  {
    if s == [] then []
    else
      var init := s[..|s| - 1];
      assert s == init + [s[|s| - 1]];
      Filter(init, p) + (if p(s[|s| - 1]) then [s[|s| - 1]] else [])
  }

  /** Strictly increasing indices. */
  ghost predicate Increasing(idx: seq<nat>) {
    forall i, j :: 0 <= i < j < |idx| ==> idx[i] < idx[j]
  }

  /** `idx` picks the elements of `a` out of `b`, in order. */
  ghost predicate SubsequenceBy<T>(a: seq<T>, b: seq<T>, idx: seq<nat>) {
    && |idx| == |a|
    && Increasing(idx)
    && (forall k :: 0 <= k < |idx| ==> idx[k] < |b| && b[idx[k]] == a[k])
  }

  lemma FilterSnoc<T(!new)>(s: seq<T>, x: T, p: T -> bool)
    ensures Filter(s + [x], p) == Filter(s, p) + (if p(x) then [x] else [])
  {
    assert (s + [x])[..|s + [x]| - 1] == s;
  }

  /** Filtering distributes over concatenation. */
  lemma {:induction false} FilterConcat<T(!new)>(a: seq<T>, b: seq<T>, p: T -> bool)
    ensures Filter(a + b, p) == Filter(a, p) + Filter(b, p)
    decreases |b|
  {
    if b == [] {
      assert a + b == a;
    } else {
      var init, x := b[..|b| - 1], b[|b| - 1];
      var tail := if p(x) then [x] else [];
      assert b == init + [x];
      assert a + b == (a + init) + [x];
      calc {
        Filter(a + b, p);
        { FilterSnoc(a + init, x, p); }
        Filter(a + init, p) + tail;
        { FilterConcat(a, init, p); }
        (Filter(a, p) + Filter(init, p)) + tail;
        Filter(a, p) + (Filter(init, p) + tail);
        { FilterSnoc(init, x, p); }
        Filter(a, p) + Filter(b, p);
      }
    }
  }

  /** A list all of whose elements pass is its own filtering. */
  lemma {:induction false} FilterAll<T(!new)>(s: seq<T>, p: T -> bool)
    requires forall k :: 0 <= k < |s| ==> p(s[k])
    ensures Filter(s, p) == s
    decreases |s|
  {
    if s != [] {
      var init := s[..|s| - 1];
      assert s == init + [s[|s| - 1]];
      FilterAll(init, p);
    }
  }

  /** Filtering a list whose head alone fails drops just the head. */
  lemma FilterDropsHead<T(!new)>(s: seq<T>, p: T -> bool)
    requires |s| > 0 && !p(s[0])
    requires forall k :: 1 <= k < |s| ==> p(s[k])
    ensures Filter(s, p) == s[1..]
  {
    assert s == [s[0]] + s[1..];
    FilterConcat([s[0]], s[1..], p);
    FilterSnoc([], s[0], p);
    assert [] + [s[0]] == [s[0]];
    FilterAll(s[1..], p);
  }

  /** The positions in `s` of the elements `Filter` keeps: exactly those
      whose element passes, so every passing copy survives. */
  lemma {:induction false} FilterIndices<T(!new)>(s: seq<T>, p: T -> bool) returns (idx: seq<nat>)
    ensures SubsequenceBy(Filter(s, p), s, idx)
    ensures forall i :: 0 <= i < |s| ==> (i in idx <==> p(s[i]))
    decreases |s|
  {
    if s == [] {
      idx := [];
    } else {
      var init, last := s[..|s| - 1], s[|s| - 1];
      var front := FilterIndices(init, p);
      assert s == init + [last];
      FilterSnoc(init, last, p);
      var keep := (i: nat) => i < |s| && p(s[i]);
      forall i | 0 <= i < |init|
        ensures i in front <==> keep(i)
      {
        assert s[i] == init[i];
      }
      idx := ExtendIndices(Filter(init, p), init, front, last, keep);
    }
  }

  /** One more element, kept or not, extends a picking of positions. */
  lemma ExtendIndices<T>(a: seq<T>, init: seq<T>, front: seq<nat>, x: T, keep: nat -> bool) returns (idx: seq<nat>)
    requires SubsequenceBy(a, init, front)
    requires forall i :: 0 <= i < |init| ==> (i in front <==> keep(i))
    ensures SubsequenceBy(a + (if keep(|init|) then [x] else []), init + [x], idx)
    ensures forall i :: 0 <= i <= |init| ==> (i in idx <==> keep(i))
  {
    var s := init + [x];
    forall k | 0 <= k < |front|
      ensures s[front[k]] == init[front[k]]
    {
    }
    assert |init| !in front;
    idx := if keep(|init|) then front + [|init|] else front;
  }

  /** Filtering keeps exactly the passing positions, in order. */
  lemma FilterPicks<T(!new)>(s: seq<T>, p: T -> bool)
    ensures exists idx :: SubsequenceBy(Filter(s, p), s, idx) && forall i :: 0 <= i < |s| ==> (i in idx <==> p(s[i]))
  {
    var idx := FilterIndices(s, p);
  }

  /** The elements of `s` at the positions `keep` accepts, in order: a
      filter whose test may depend on where an element sits. */
  function Select<T>(s: seq<T>, keep: nat -> bool): (r: seq<T>)
    ensures |r| <= |s|
    decreases |s|
  {
    if s == [] then []
    else Select(s[..|s| - 1], keep) + (if keep(|s| - 1) then [s[|s| - 1]] else [])
  }

  /** The positions `Select` keeps are exactly the accepted ones. */
  lemma {:induction false} SelectIndices<T>(s: seq<T>, keep: nat -> bool) returns (idx: seq<nat>)
    ensures SubsequenceBy(Select(s, keep), s, idx)
    ensures forall i :: 0 <= i < |s| ==> (i in idx <==> keep(i))
    decreases |s|
  {
    if s == [] {
      idx := [];
    } else {
      var init := s[..|s| - 1];
      var front := SelectIndices(init, keep);
      assert s == init + [s[|s| - 1]];
      idx := ExtendIndices(Select(init, keep), init, front, s[|s| - 1], keep);
    }
  }

  /** `Select` picks exactly the accepted positions, in order. */
  lemma SelectPicks<T>(s: seq<T>, keep: nat -> bool)
    ensures exists idx :: SubsequenceBy(Select(s, keep), s, idx) && forall i :: 0 <= i < |s| ==> (i in idx <==> keep(i))
  {
    var idx := SelectIndices(s, keep);
  }
}

=== FILE: time.dfy ===
/** Instants and the day length the registry schedules with. */
module Time {

  /** Nanoseconds since the Unix epoch, UTC. Clock readings and file
      modification times keep their sub-second part; timestamps parsed from
      the `%Y-%m-%dT%H:%M:%SZ` format are whole seconds. */
  type Instant = int

  const NanosPerSecond: int := 1_000_000_000
  const SecondsPerDay: int := 86_400

  /** chrono's `Duration::days(n)`. */
  function Days(n: nat): int {
    n * SecondsPerDay * NanosPerSecond
  }
}

=== FILE: tree_listing.dfy ===
/** The directory listing and folder comparison commands (main.rs). Both
    fold over a walk, pushing one node per entry below the root into a flat
    tree (the tree_flat crate) and counting the non-directories. The
    textual rendering of the tree is not modelled. */
module TreeListing {
  import opened Seqs
  import opened Paths
  import opened Walk
  import opened Types

  /** A flat tree: node `i` has a label, a level and the id of the node it
      was pushed under. Node 0 is the root, created with level 0 and its
      own id as parent. */
  datatype Tree = Tree(labels: seq<string>, levels: seq<nat>, parents: seq<nat>)

  /** The listing loop's state: the tree so far, the id new nodes are
      pushed under, and the number of non-directories seen. */
  datatype Fold = Fold(tree: Tree, parent: nat, count: nat)

  /** What a command returns: the tree (rendered to text by the program)
      and the file count. */
  datatype Summary = Summary(tree: Tree, count: nat)

  /** The node a push hangs under once the first `j` non-root entries `ns`
      are in the tree (entry `k` is node `k + 1`): the most recently pushed
      directory, or the root if there is none. */
  function LastDirNode(ns: seq<Entry>, j: nat): (p: nat)
    requires j <= |ns|
    ensures p <= j
    ensures p > 0 ==> ns[p - 1].kind == Dir
    ensures forall k :: p <= k < j ==> ns[k].kind != Dir
  {
    if j == 0 then 0
    else if ns[j - 1].kind == Dir then j
    else LastDirNode(ns, j - 1)
  }

  /** The entries that get a node: all but the root. */
  function NonRoot(walk: seq<Entry>): seq<Entry> {
    Filter(walk, IsNonRoot)
  }

  /** Pushing more entries does not move the parent earlier entries saw. */
  lemma {:induction false} LastDirNodeOfPrefix(ns: seq<Entry>, e: Entry, j: nat)
    requires j <= |ns|
    ensures LastDirNode(ns + [e], j) == LastDirNode(ns, j)
  {
    if j > 0 {
      assert (ns + [e])[j - 1] == ns[j - 1];
      LastDirNodeOfPrefix(ns, e, j - 1);
    }
  }

  /** The node count, labels, levels and parents of a tree built from the
      non-root entries `ns`. */
  ghost predicate Shaped(t: Tree, root: string, ns: seq<Entry>, labelOf: Entry -> string) {
    && |t.labels| == |ns| + 1
    && |t.levels| == |ns| + 1
    && |t.parents| == |ns| + 1
    && t.labels[0] == root && t.levels[0] == 0 && t.parents[0] == 0
    && (forall k :: 1 <= k <= |ns| ==> t.labels[k] == labelOf(ns[k - 1]))
    && (forall k :: 1 <= k <= |ns| ==> t.levels[k] == ns[k - 1].depth)
    && (forall k :: 1 <= k <= |ns| ==> t.parents[k] == LastDirNode(ns, k - 1))
  }

  /** The loop shared by `get_files_tree` and `folder_compare`: the root
      entry is skipped; every other entry pushes one node, labelled by
      `labelOf`, at the entry's depth, under the current parent; a
      directory then becomes the parent, anything else is counted. */
  function BuildTree(root: string, walk: seq<Entry>, labelOf: Entry -> string): (f: Fold)
    ensures Folded(f, root, walk, labelOf)
    decreases |walk|
  {
    if walk == [] then Fold(Tree([root], [0], [0]), 0, 0)
    else
      var f := BuildTree(root, walk[..|walk| - 1], labelOf);
      StepKeepsFolded(f, root, walk, labelOf);
      Step(f, walk[|walk| - 1], labelOf)
  }

  /** What the loop has built after the entries `walk`. */
  ghost predicate Folded(f: Fold, root: string, walk: seq<Entry>, labelOf: Entry -> string) {
    && Shaped(f.tree, root, NonRoot(walk), labelOf)
    && f.parent == LastDirNode(NonRoot(walk), |NonRoot(walk)|)
    && f.count == |Filter(walk, IsListedFile)|
  }

  /** One turn of the loop. */
  function Step(f: Fold, e: Entry, labelOf: Entry -> string): Fold {
    if e.depth == 0 then f
    else
      var t := Push(f.tree, labelOf(e), e.depth, f.parent);
      if e.kind == Dir then Fold(t, |f.tree.labels|, f.count) else Fold(t, f.parent, f.count + 1)
  }

  /** One turn of the loop extends what it has built by one entry. */
  lemma StepKeepsFolded(f: Fold, root: string, walk: seq<Entry>, labelOf: Entry -> string)
    requires |walk| > 0 && Folded(f, root, walk[..|walk| - 1], labelOf)
    ensures Folded(Step(f, walk[|walk| - 1], labelOf), root, walk, labelOf)
  {
    var init, e := walk[..|walk| - 1], walk[|walk| - 1];
    assert walk == init + [e];
    FilterSnoc(init, e, IsNonRoot);
    FilterSnoc(init, e, IsListedFile);
    if e.depth == 0 {
      assert NonRoot(walk) == NonRoot(init);
    } else {
      PushKeepsFolded(f, root, init, e, labelOf);
    }
  }

  lemma PushKeepsFolded(f: Fold, root: string, walk: seq<Entry>, e: Entry, labelOf: Entry -> string)
    requires Folded(f, root, walk, labelOf) && e.depth > 0
    requires NonRoot(walk + [e]) == NonRoot(walk) + [e]
    requires |Filter(walk + [e], IsListedFile)| == f.count + (if e.kind == Dir then 0 else 1)
    ensures Folded(Step(f, e, labelOf), root, walk + [e], labelOf)
  {
    var ns := NonRoot(walk);
    PushKeepsShape(f.tree, root, ns, e, labelOf, f.parent);
    LastDirNodeOfPrefix(ns, e, |ns|);
    assert (ns + [e])[|ns|] == e;
  }

  /** tree_flat's `push_with_level`. */
  function Push(t: Tree, name: string, level: nat, parent: nat): Tree {
    Tree(t.labels + [name], t.levels + [level], t.parents + [parent])
  }

  lemma PushKeepsShape(t: Tree, root: string, ns: seq<Entry>, e: Entry, labelOf: Entry -> string, parent: nat)
    requires Shaped(t, root, ns, labelOf) && parent == LastDirNode(ns, |ns|)
    ensures Shaped(Push(t, labelOf(e), e.depth, parent), root, ns + [e], labelOf)
  {
    var t' := Push(t, labelOf(e), e.depth, parent);
    var ns' := ns + [e];
    forall k | 1 <= k <= |ns'|
      ensures t'.labels[k] == labelOf(ns'[k - 1])
      ensures t'.levels[k] == ns'[k - 1].depth
      ensures t'.parents[k] == LastDirNode(ns', k - 1)
    {
      LastDirNodeOfPrefix(ns, e, k - 1);
    }
  }

  /** `name_from_path`: the last component of an entry's path. Entries
      below the root always have one. */
  function EntryName(e: Entry): string {
    if |e.rel| == 0 then "" else e.rel[|e.rel| - 1]
  }

  /** `get_files_tree`: one node per entry below the root, named by its last
      component; the count is the number of non-directories below the root. */
  function GetFilesTree(path: string, walk: seq<Entry>): (r: Summary)
    ensures Shaped(r.tree, path, NonRoot(walk), EntryName)
    ensures r.count == |Filter(walk, IsListedFile)|
  {
    var f := BuildTree(path, walk, EntryName);
    assert Folded(f, path, walk, EntryName);
    Summary(f.tree, f.count)
  }

  /** An empty directory lists as its root alone, with no files. */
  lemma EmptyDirectoryListing(path: string)
    ensures GetFilesTree(path, [Entry([], 0, Dir)]).tree.labels == [path]
    ensures GetFilesTree(path, [Entry([], 0, Dir)]).count == 0
  {
    var walk := [Entry([], 0, Dir)];
    FilterSnoc([], walk[0], IsNonRoot);
    FilterSnoc([], walk[0], IsListedFile);
    assert [] + [walk[0]] == walk;
  }

  /** The parent slot is the most recent directory, not the structural
      parent: after `a/x`, the sibling `b` of `a` is pushed under `a`, one
      level below which it does not sit. */
  lemma ParentIsMostRecentDirectory(path: string)
    ensures var walk := [Entry([], 0, Dir), Entry(["a"], 1, Dir), Entry(["a", "x"], 2, File), Entry(["b"], 1, File)];
      var t := GetFilesTree(path, walk).tree;
      && |t.labels| == 4
      && t.parents[3] == 1
      && t.levels[3] == t.levels[1] == 1
  {
    var walk := [Entry([], 0, Dir), Entry(["a"], 1, Dir), Entry(["a", "x"], 2, File), Entry(["b"], 1, File)];
    FilterDropsHead(walk, IsNonRoot);
    var ns := NonRoot(walk);
    assert ns == walk[1..];
    assert LastDirNode(ns, 2) == 1;
  }

  type Bytes = seq<bv8>

  /** The destination side of `folder_compare`: every non-directory of the
      destination walk, keyed by its path relative to the destination root,
      mapped to the hash of its contents. */
  function DestinationMap(walk: seq<Entry>, read: Path -> Bytes, hash: Bytes -> U64): (m: map<Path, U64>)
    ensures forall p :: p in m <==> exists i :: 0 <= i < |walk| && walk[i].kind != Dir && walk[i].rel == p
    ensures forall p :: p in m ==> m[p] == hash(read(p))
    decreases |walk|
  {
    if walk == [] then map[]
    else
      var init, e := walk[..|walk| - 1], walk[|walk| - 1];
      assert walk == init + [e];
      var m := DestinationMap(init, read, hash);
      if e.kind != Dir then m[e.rel := hash(read(e.rel))] else m
  }

  const NewTag := "[NEW] "
  const ChangedTag := "[CHANGED] "

  /** The prefix `folder_compare` gives a source path: "[NEW] " when the map
      lacks it, nothing when the hashes agree, "[CHANGED] " when they differ. */
  function Tag(m: map<Path, U64>, rel: Path, sourceHash: U64): string {
    if rel in m then (if m[rel] == sourceHash then "" else ChangedTag) else NewTag
  }

  /** Some non-directory of the destination walk sits at `rel`. */
  predicate InDestination(dst: seq<Entry>, rel: Path) {
    exists i :: 0 <= i < |dst| && dst[i].kind != Dir && dst[i].rel == rel
  }

  /** The classification stated against the destination walk itself: new
      when no destination file has the same relative path, unchanged when
      one has and the two contents hash alike, changed otherwise. */
  function Classify(dst: seq<Entry>, srcRead: Path -> Bytes, dstRead: Path -> Bytes,
                    hash: Bytes -> U64, rel: Path): string {
    if !InDestination(dst, rel) then NewTag
    else if hash(srcRead(rel)) == hash(dstRead(rel)) then ""
    else ChangedTag
  }

  /** Every read `folder_compare` makes succeeds. It reads each destination
      entry that is not a directory, and each source entry below the root
      whose path the map holds; reading anything but a regular file there
      (a dangling link, a directory) panics. A comparison that returns
      therefore saw only regular files at those places. */
  predicate ReadsSucceed(src: seq<Entry>, dst: seq<Entry>) {
    && (forall i :: 0 <= i < |dst| ==> dst[i].kind != Other)
    && (forall i :: 0 <= i < |src| && IsNonRoot(src[i]) && InDestination(dst, src[i].rel) ==> src[i].kind == File)
  }

  /** The label `folder_compare` gives a source entry: its tag, then its name. */
  function CompareLabel(dst: seq<Entry>, srcRead: Path -> Bytes, dstRead: Path -> Bytes,
                        hash: Bytes -> U64, e: Entry): string {
    Classify(dst, srcRead, dstRead, hash, e.rel) + EntryName(e)
  }

  /** `folder_compare`: the destination map is built first; then the source
      walk is listed as `get_files_tree` lists it, each name prefixed by its
      tag. The count is of all non-directories, whatever their tag. */
  function FolderCompare(input: string, src: seq<Entry>, dst: seq<Entry>,
                         srcRead: Path -> Bytes, dstRead: Path -> Bytes, hash: Bytes -> U64): (r: Summary)
    requires ReadsSucceed(src, dst)
    ensures Shaped(r.tree, input, NonRoot(src), e => CompareLabel(dst, srcRead, dstRead, hash, e))
    ensures r.count == |Filter(src, IsListedFile)|
  {
    var m := DestinationMap(dst, dstRead, hash);
    var labelOf := (e: Entry) => Tag(m, e.rel, hash(srcRead(e.rel))) + EntryName(e);
    var f := BuildTree(input, src, labelOf);
    assert Folded(f, input, src, labelOf);
    Summary(f.tree, f.count)
  }

  /** Directories are never keys of the destination map: a source path
      that is a directory in the destination is tagged new, whatever the
      source holds there. */
  lemma DirectoriesAreNeverKeys(dst: seq<Entry>, dstRead: Path -> Bytes, hash: Bytes -> U64, j: nat, sourceHash: U64)
    requires DistinctPaths(dst) && j < |dst| && dst[j].kind == Dir
    ensures dst[j].rel !in DestinationMap(dst, dstRead, hash)
    ensures Tag(DestinationMap(dst, dstRead, hash), dst[j].rel, sourceHash) == NewTag
  {
    forall i | 0 <= i < |dst| && dst[i].kind != Dir
      ensures dst[i].rel != dst[j].rel
    {
      assert i != j;
    }
  }

  predicate EndsWith(s: string, suffix: string) {
    |suffix| <= |s| && s[|s| - |suffix|..] == suffix
  }

  /** Paths are matched literally: against a compressed replica, whose file
      names all end in ".zst", a source file not so named is always new. */
  lemma CompressedReplicaIsAllNew(dst: seq<Entry>, srcRead: Path -> Bytes,
                                  dstRead: Path -> Bytes, hash: Bytes -> U64, rel: Path)
    requires forall i :: 0 <= i < |dst| && dst[i].kind != Dir ==> |dst[i].rel| > 0 && EndsWith(dst[i].rel[|dst[i].rel| - 1], ".zst")
    requires |rel| > 0 && !EndsWith(rel[|rel| - 1], ".zst")
    ensures Classify(dst, srcRead, dstRead, hash, rel) == NewTag
  {
  }

  /** Destination {a.txt} against source {a.txt with the same contents,
      b.txt}: a.txt is unchanged, b.txt new, and both are counted. */
  lemma CompareExample(root: string, srcRead: Path -> Bytes, dstRead: Path -> Bytes, hash: Bytes -> U64)
    requires srcRead(["a.txt"]) == dstRead(["a.txt"])
    ensures var dst := [Entry([], 0, Dir), Entry(["a.txt"], 1, File)];
      var src := [Entry([], 0, Dir), Entry(["a.txt"], 1, File), Entry(["b.txt"], 1, File)];
      var r := FolderCompare(root, src, dst, srcRead, dstRead, hash);
      && r.tree.labels == [root, "a.txt", "[NEW] b.txt"]
      && r.count == 2
  {
    var dst := [Entry([], 0, Dir), Entry(["a.txt"], 1, File)];
    var src := [Entry([], 0, Dir), Entry(["a.txt"], 1, File), Entry(["b.txt"], 1, File)];
    var labelOf := e => CompareLabel(dst, srcRead, dstRead, hash, e);
    ExampleWalk(src);
    ExampleLabels(dst, srcRead, dstRead, hash, src[1], src[2]);
    assert ReadsSucceed(src, dst) by {
      forall i | 0 <= i < |dst| ensures dst[i].kind != Other { }
    }
    var r := FolderCompare(root, src, dst, srcRead, dstRead, hash);
    TwoNodeLabels(r.tree, root, NonRoot(src), labelOf);
  }

  /** The labels of a tree built from two non-root entries. */
  lemma TwoNodeLabels(t: Tree, root: string, ns: seq<Entry>, labelOf: Entry -> string)
    requires Shaped(t, root, ns, labelOf) && |ns| == 2
    ensures t.labels == [root, labelOf(ns[0]), labelOf(ns[1])]
  {
  }

  lemma ExampleWalk(src: seq<Entry>)
    requires src == [Entry([], 0, Dir), Entry(["a.txt"], 1, File), Entry(["b.txt"], 1, File)]
    ensures NonRoot(src) == src[1..]
    ensures |Filter(src, IsListedFile)| == 2
  {
    FilterDropsHead(src, IsNonRoot);
    FilterDropsHead(src, IsListedFile);
  }

  lemma ExampleLabels(dst: seq<Entry>, srcRead: Path -> Bytes, dstRead: Path -> Bytes, hash: Bytes -> U64, a: Entry, b: Entry)
    requires dst == [Entry([], 0, Dir), Entry(["a.txt"], 1, File)]
    requires a == Entry(["a.txt"], 1, File) && b == Entry(["b.txt"], 1, File)
    requires srcRead(["a.txt"]) == dstRead(["a.txt"])
    ensures CompareLabel(dst, srcRead, dstRead, hash, a) == "a.txt"
    ensures CompareLabel(dst, srcRead, dstRead, hash, b) == "[NEW] b.txt"
  {
    assert InDestination(dst, ["a.txt"]) by { assert dst[1].rel == ["a.txt"]; }
    assert !InDestination(dst, ["b.txt"]) by {
      forall i | 0 <= i < |dst| ensures dst[i].rel != ["b.txt"] { }
    }
  }
}

=== FILE: types.dfy ===
/** The persisted registry record and its serde shape (types.rs). */
module Types {
  import opened Wrappers
  import opened Json

  /** Rust's `u32`. */
  type U32 = n: nat | n < 0x1_0000_0000

  /** Rust's `u64`: the width of the identifier and content hashes. */
  type U64 = n: nat | n < 0x1_0000_0000_0000_0000

  /** One configured backup job. `nextUpdate` is a whole number of days,
      `lastBackup` a `%Y-%m-%dT%H:%M:%SZ` timestamp and `hash` the job's
      identifier; the two button fields are placeholders the front end fills. */
  datatype BackupEntry = BackupEntry(
    title: string,
    input: string,
    output: string,
    lastBackup: string,
    nextUpdate: U32,
    deleteButton: string,
    backupButton: string,
    hash: string)

  /** The whole registry; its order is insertion order. */
  datatype Backups = Backups(backups: seq<BackupEntry>)

  /** The fields of `BackupEntry`, in declaration (and so serialisation) order. */
  datatype Field = Title | Input | Output | LastBackup | NextUpdate | DeleteButton | BackupButton | Hash

  const AllFields: seq<Field> := [Title, Input, Output, LastBackup, NextUpdate, DeleteButton, BackupButton, Hash]

  /** The JSON key of each field: four are renamed to camel case, the rest
      keep their Rust names. */
  function Key(f: Field): string {
    match f
    case Title => "title"
    case Input => "input"
    case Output => "output"
    case LastBackup => "lastBackup"
    case NextUpdate => "nextUpdate"
    case DeleteButton => "deleteButton"
    case BackupButton => "backupButton"
    case Hash => "hash"
  }

  /** The record has exactly eight fields, each written once, under keys
      that tell them apart. */
  lemma FieldsAndKeys()
    ensures |AllFields| == 8
    ensures forall f: Field :: f in AllFields
    ensures forall i, j :: 0 <= i < j < |AllFields| ==> AllFields[i] != AllFields[j]
    ensures forall f: Field, g: Field :: Key(f) == Key(g) ==> f == g
  {
    forall f: Field
      ensures f in AllFields
    {
      match f
      case Title => assert AllFields[0] == f;
      case Input => assert AllFields[1] == f;
      case Output => assert AllFields[2] == f;
      case LastBackup => assert AllFields[3] == f;
      case NextUpdate => assert AllFields[4] == f;
      case DeleteButton => assert AllFields[5] == f;
      case BackupButton => assert AllFields[6] == f;
      case Hash => assert AllFields[7] == f;
    }
  }

  /** The members an entry is written as, in declaration order. */
  function EntryMembers(e: BackupEntry): seq<(string, Json)> {
    [
      (Key(Title), JStr(e.title)),
      (Key(Input), JStr(e.input)),
      (Key(Output), JStr(e.output)),
      (Key(LastBackup), JStr(e.lastBackup)),
      (Key(NextUpdate), JNum(e.nextUpdate)),
      (Key(DeleteButton), JStr(e.deleteButton)),
      (Key(BackupButton), JStr(e.backupButton)),
      (Key(Hash), JStr(e.hash))
    ]
  }

  /** A written entry has eight members, one per field, under the keys
      serde writes: the field names, four of them renamed to camel case.
      No key repeats. */
  lemma SerialisedKeys(e: BackupEntry)
    ensures var ms := EntryMembers(e);
      && |ms| == 8
      && ms[0].0 == "title" && ms[1].0 == "input" && ms[2].0 == "output"
      && ms[3].0 == "lastBackup" && ms[4].0 == "nextUpdate"
      && ms[5].0 == "deleteButton" && ms[6].0 == "backupButton" && ms[7].0 == "hash"
    ensures forall i, j :: 0 <= i < j < |EntryMembers(e)| ==> EntryMembers(e)[i].0 != EntryMembers(e)[j].0
  {
    KeysFollowFields(e);
    FieldsAndKeys();
  }

  /** The `i`-th member is written under the `i`-th field's key. */
  lemma KeysFollowFields(e: BackupEntry)
    ensures |EntryMembers(e)| == |AllFields|
    ensures forall i :: 0 <= i < |AllFields| ==> EntryMembers(e)[i].0 == Key(AllFields[i])
  {
  }

  function EncodeEntry(e: BackupEntry): Json {
    JObj(EntryMembers(e))
  }

  function StrMember(ms: seq<(string, Json)>, f: Field): Option<string> {
    match Member(ms, Key(f))
    case Some(JStr(s)) => Some(s)
    case _ => None
  }

  /** A `u32` field: a number out of range is an error, as in serde_json. */
  function U32Member(ms: seq<(string, Json)>, f: Field): Option<U32> {
    match Member(ms, Key(f))
    case Some(JNum(n)) => if 0 <= n < 0x1_0000_0000 then Some(n as U32) else None
    case _ => None
  }

  function DecodeEntry(j: Json): Option<BackupEntry> {
    if !j.JObj? then None
    else
      var ms := j.members;
      var title, input, output := StrMember(ms, Title), StrMember(ms, Input), StrMember(ms, Output);
      var last, next := StrMember(ms, LastBackup), U32Member(ms, NextUpdate);
      var del, bak, hash := StrMember(ms, DeleteButton), StrMember(ms, BackupButton), StrMember(ms, Hash);
      if title.Some? && input.Some? && output.Some? && last.Some? && next.Some?
         && del.Some? && bak.Some? && hash.Some?
      then Some(BackupEntry(title.value, input.value, output.value, last.value, next.value,
                            del.value, bak.value, hash.value))
      else None
  }

  /** Each field is found under its own key in a written entry. */
  lemma MemberOfEntry(e: BackupEntry, i: nat)
    requires i < 8
    ensures Member(EntryMembers(e), EntryMembers(e)[i].0) == Some(EntryMembers(e)[i].1)
  {
    var ms := EntryMembers(e);
    assert forall j :: 0 <= j < |ms| ==> ms[j].0 == Key(AllFields[j]);
    FieldsAndKeys();
    MemberOfUnique(ms, i);
  }

  /** Reading back a written entry recovers every field. */
  lemma DecodeEncodeEntry(e: BackupEntry)
    ensures DecodeEntry(EncodeEntry(e)) == Some(e)
  {
    var ms := EntryMembers(e);
    MemberOfEntry(e, 0);
    MemberOfEntry(e, 1);
    MemberOfEntry(e, 2);
    MemberOfEntry(e, 3);
    MemberOfEntry(e, 4);
    MemberOfEntry(e, 5);
    MemberOfEntry(e, 6);
    MemberOfEntry(e, 7);
    assert StrMember(ms, Title) == Some(e.title);
    assert StrMember(ms, Input) == Some(e.input);
    assert StrMember(ms, Output) == Some(e.output);
    assert StrMember(ms, LastBackup) == Some(e.lastBackup);
    assert U32Member(ms, NextUpdate) == Some(e.nextUpdate);
    assert StrMember(ms, DeleteButton) == Some(e.deleteButton);
    assert StrMember(ms, BackupButton) == Some(e.backupButton);
    assert StrMember(ms, Hash) == Some(e.hash);
  }

  function EncodeEntries(es: seq<BackupEntry>): (r: seq<Json>)
    ensures |r| == |es|
    ensures forall i :: 0 <= i < |es| ==> r[i] == EncodeEntry(es[i])
  {
    seq(|es|, i requires 0 <= i < |es| => EncodeEntry(es[i]))
  }

  /** The items of a JSON array as entries; one bad item fails the lot. */
  function DecodeEntries(items: seq<Json>): (r: Option<seq<BackupEntry>>)
    ensures r.Some? ==> |r.value| == |items|
  {
    if items == [] then Some([])
    else match (DecodeEntry(items[0]), DecodeEntries(items[1..]))
      case (Some(e), Some(rest)) => Some([e] + rest)
      case _ => None
  }

  lemma {:induction false} DecodeEncodeEntries(es: seq<BackupEntry>)
    ensures DecodeEntries(EncodeEntries(es)) == Some(es)
    decreases |es|
  {
    if es != [] {
      DecodeEncodeEntry(es[0]);
      DecodeEncodeEntries(es[1..]);
      assert EncodeEntries(es)[1..] == EncodeEntries(es[1..]);
      assert [es[0]] + es[1..] == es;
    }
  }

  const BackupsKey := "backups"

  function EncodeBackups(b: Backups): Json {
    JObj([(BackupsKey, JArr(EncodeEntries(b.backups)))])
  }

  function DecodeBackups(j: Json): Option<Backups> {
    if !j.JObj? then None
    else match Member(j.members, BackupsKey)
      case Some(JArr(items)) =>
        (match DecodeEntries(items)
         case Some(es) => Some(Backups(es))
         case None => None)
      case _ => None
  }

  /** Reading back a written registry recovers every entry, in order. */
  lemma DecodeEncodeBackups(b: Backups)
    ensures DecodeBackups(EncodeBackups(b)) == Some(b)
  {
    var ms := EncodeBackups(b).members;
    MemberOfUnique(ms, 0);
    DecodeEncodeEntries(b.backups);
  }
}

=== FILE: walk.dfy ===
/** The entries a recursive directory walk (jwalk's `WalkDir`) yields,
    taken as given: the walk itself reads the file system. */
module Walk {
  import opened Paths

  /** `is_dir()` and `is_file()` are both false for, e.g., a dangling link. */
  datatype Kind = File | Dir | Other

  /** One walked node: its path relative to the walk's root, its depth
      (the root itself has depth 0) and its kind. */
  datatype Entry = Entry(rel: Path, depth: nat, kind: Kind)

  /** What a walk yields: the depth counts the components of the relative
      path, and every component is a plain name. `WalkDir::new` skips
      hidden entries unless told otherwise, and never descends into a hidden
      directory, so no component of a walked path is hidden. */
  predicate WellFormed(walk: seq<Entry>) {
    forall i :: 0 <= i < |walk| ==>
      && walk[i].depth == |walk[i].rel|
      && IsNormalPath(walk[i].rel)
      && IsVisiblePath(walk[i].rel)
  }

  /** A walk visits every path once. */
  predicate DistinctPaths(walk: seq<Entry>) {
    forall i, j :: 0 <= i < j < |walk| ==> walk[i].rel != walk[j].rel
  }

  /** Everything below the root. */
  predicate IsNonRoot(e: Entry) {
    e.depth >= 1
  }

  /** What main.rs counts: every non-directory below the root. */
  predicate IsListedFile(e: Entry) {
    e.depth >= 1 && e.kind != Dir
  }

  /** What compression.rs transforms: every regular file, at any depth. */
  predicate IsRegularFile(e: Entry) {
    e.kind == File
  }
}

=== FILE: wrappers.dfy ===
/** Optional values, standing in for Rust's `Option` and for the `Result`s
    whose error case the program never inspects. */
module Wrappers {

  datatype Option<+T> = None | Some(value: T)
}
